=== FILE: README.md ===
# Robin Hood dictionary, modelled in Dafny

This project models `RobinHoodDict` from `robin_dict.py`, an open-addressed hash
table of fixed capacity that uses Robin Hood insertion:

- **The slot array.** `BucketList` is a list of optional
  `RobinValue(hash, key, value)` entries. It also keeps a fill counter `n_full`
  and the set `deleted` of tombstoned indices.
- **Insert.** It scans forward from the key's home index, with no wrap-around,
  to the first slot that is empty or holds an entry with a smaller home. It
  writes the new entry there. It then re-inserts any entry it evicted, starting
  from that entry's own home.
- **The search window.** Lookup and delete walk an interleaved window of
  indices. The window is centred on the running `mean_dist` and runs up to
  `max_dist`. Tombstoned indices are skipped.

Everything is pure functions over immutable values. These are the modules:

| module | file | contents |
|---|---|---|
| `Options` | `options.dfy` | `Option<T>` |
| `Buckets` | `buckets.dfy` | `BucketList`, with its `__setitem__` (`Write`) and `__delitem__` (`Delete`), and the stored pairs as a multiset |
| `Displacement` | `displacement.dfy` | `_add_to_mean` and `_remove_from_mean`, using Python's exact rounding rules |
| `SearchWindow` | `search_window.dfy` | `_get_smart_search_indexes` |
| `RobinDict` | `robin_dict.dfy` | the table and its operations |
| `RobinDictFacts` | `robin_dict_facts.dfy` | lemmas relating operations |
| `RobinDictExample` | `robin_dict_facts.dfy` | one worked insertion sequence |

Details of the model:

- **Hashing.** Python's built-in `hash()` is the parameter `hash: K -> int` of
  every operation.
- **Errors.** A mutating operation returns a `Step`: either `Done(table)`, or
  `Raised(error, table)`. The error is one of `KeyError`, `IndexError`,
  `TypeError` or `ZeroDivisionError`. The table in `Raised` is the state Python
  leaves behind when it raises part-way through.
- **`Valid`.** This is the invariant of reachable tables:
  - every tombstone is an empty slot;
  - every stored `hash` field is its key's home index;
  - every displacement lies in `[0, max_dist]`;
  - `max_dist >= 1`;
  - `n_full` is at least twice the number of occupied slots;
  - `mean_dist` is at most 0, or it is still the initial 1 and no slot is
    occupied (`MeanLow`);
  - every slot from an entry's home up to its slot is occupied or a tombstone
    (`RunsFilled`).

  `New` establishes `Valid`, and `SetItem` and `DelItem` preserve it. Once
  anything has been stored the mean is never positive, and the search window
  of home `h` is then exactly the indices from `h` to `h + max_dist`, without
  the tombstones, walked upward (index 0 is repeated when `h` is 0, because
  the empty downward arm is padded with 0 and the padding passes the filter).
  Before that the mean is 1 and the window
  starts at `h + 1`. In a fresh 10-slot table the window of home 9 is
  `[10, 9]`, so looking up a key of home 9 raises `IndexError`, not `KeyError`.

The code is modelled as written, not an idealised dictionary:

- **The counter.** `__len__` returns the counter `n_full`. The counter grows by
  2 on each successful `set` and drops by 1 on each delete that removes an
  entry. A delete that raises `KeyError` or `IndexError` leaves it as it is.
- **Duplicates.** `set` never replaces an entry whose key is already stored.
- **Tombstones.** A tombstone is an empty slot whose index is in `deleted`.
  There is no third slot state.
- **Fixed capacity.** The capacity never changes after construction: there is
  no resize or rehash.
- **`max_dist`.** It is never lowered after a delete.
- **Failures.** A lookup or delete of a stored key always finds it: the window
  walks upward from the home, and it only passes occupied slots and tombstones
  before it reaches the entry. A lookup of a missing key can raise `IndexError`
  when the window runs past the end of the array. An insert near the end of the
  array can fail, because the scan does not wrap around.

## Model

| member | source | states |
|---|---|---|
| Buckets.Fresh | robin_dict.py:21-24 | a new list of n empty slots has counter 0, an empty `deleted` set, no occupied slot and no stored pair |
| Buckets.Write | robin_dict.py:26-32 | writing slot idx replaces only that slot and un-tombstones idx; the counter moves by twice the change in occupancy (+2 when an empty slot is filled, 0 when an entry replaces an entry); the stored pairs lose the old slot's pair and gain the new one; tombstones stay empty slots |
| Buckets.Delete | robin_dict.py:34-41 | deleting slot idx empties it and tombstones idx; the counter drops by 1 exactly when the slot was occupied; the stored pairs lose exactly that slot's pair |
| Displacement.FloorDiv | robin_dict.py:127-128 | Python's `//` rounds the quotient toward minus infinity, for both signs of the divisor |
| Displacement.TruncDiv | robin_dict.py:131-132 | `int()` of a quotient by a positive divisor rounds toward zero, for both signs of the dividend |
| Displacement.RemoveFromMean | robin_dict.py:126-128 | the new mean is the floor of (mean * n_full - distance) / (n_full - 1), and the division raises exactly when n_full is 1 |
| Displacement.AddToMean | robin_dict.py:130-132 | the new mean is (mean * n_full + distance) / (2 * n_full), rounded toward zero |
| Displacement.AddToMeanNotPositive | robin_dict.py:130-132 | from a mean of at most 1, a distance smaller than the occupancy and a counter at least twice the occupancy, the new mean is at most 0 |
| Displacement.RemoveFromMeanNotPositive | robin_dict.py:126-128 | removing a non-negative distance from a mean of at most 0 gives a mean of at most 0, whenever the division does not raise |
| SearchWindow.Ascending | robin_dict.py:136 | `range(lo, hi)` lists lo, lo+1, ..., hi-1 and nothing else |
| SearchWindow.Descending | robin_dict.py:137 | `range(hi, lo, -1)` lists hi, hi-1, ..., lo+1 and nothing else |
| SearchWindow.Interleave | robin_dict.py:136-138 | `chain(*zip_longest(a, b, fillvalue=fill))` has length twice the longer arm; position 2k holds a[k] and position 2k + 1 holds b[k], or the fill value once that arm has run out; so it contains exactly the elements of both arms, plus the fill value when the arms differ in length |
| SearchWindow.KeepCandidates | robin_dict.py:140 | the filter keeps exactly the indices at or above h that are not tombstoned |
| SearchWindow.KeepCandidatesDistributes | robin_dict.py:140 | the filter works element by element, keeping order and multiplicity: filtering a concatenation concatenates the filtered parts, and one index is kept exactly when it is at or above h and not tombstoned |
| SearchWindow.InterleaveAscends | robin_dict.py:136-138 | with mean_dist <= 0 the descending arm is empty, so each index of [h, h + max_dist] comes before every larger index |
| SearchWindow.KeepCandidatesKeepsOrder | robin_dict.py:140 | the filter keeps a candidate index ahead of every larger index |
| SearchWindow.SmartSearchIndexes | robin_dict.py:134-140 | every yielded index is at least h and not tombstoned; every untombstoned index from h to h + max(max_dist, mean_dist - 1) is yielded; with max_dist >= 0 these are exactly the yielded indices; with mean_dist <= 0 each untombstoned index of [h, h + max_dist] is yielded before every larger index |
| RobinDict.ComputeHash | robin_dict.py:120-121 | the home index lies in [0, capacity) |
| RobinDict.FindBucket | robin_dict.py:115-118 | the least index at or after h whose slot is empty or holds a smaller home; every slot before it from h on is occupied by an entry of home >= h; no result iff no such index exists before the end of the array (no wrap-around) |
| RobinDict.Place | robin_dict.py:63-67 | one write of `__setitem__` into the slot `_find_bucket` chose stores the entry under its home, raises max_dist to cover the new displacement, sets mean_dist by `_add_to_mean` with the post-write counter (at least 2), which leaves it at most 0, and keeps the table valid |
| RobinDict.WriteKeepsValid | robin_dict.py:60-67 | writing into the slot `_find_bucket` chose keeps every invariant of `Valid`, including the filled run from the new entry's home to its slot |
| RobinDict.SetItem | robin_dict.py:58-70 | from a valid table: the result is valid; capacity is unchanged; max_dist never decreases; no new tombstones appear; the cascade makes between 1 and h + 1 calls. When `_find_bucket` finds no slot for the key's home, the unpack raises TypeError and the table is unchanged. On success the stored pairs gain exactly (key, val), even when key is already stored; one more slot is occupied; `len()` grows by 2. When no free slot is left, a TypeError leaves `len()` and the number of stored pairs unchanged, with one pair of the cascade lost |
| RobinDict.ProbeWindow | robin_dict.py:76-87 | the walk stops at the first window position that is a match for (h, key), an empty slot, or an index past the array; every earlier position is an occupied non-matching slot |
| RobinDict.GetItem | robin_dict.py:72-87 | returns v only when the first matching window slot holds (h, key, v) and every earlier slot was occupied; KeyError when an empty slot comes first or the window runs out; IndexError naming the first index past the array |
| RobinDict.DelItem | robin_dict.py:89-105 | a successful delete empties and tombstones exactly the first matching window slot: one pair and one occupied slot go, `len()` drops by 1, max_dist and every other slot stay. ZeroDivisionError iff a match is found while `len()` is 2, with the slot already removed. KeyError and IndexError leave the table unchanged. Validity is preserved |
| RobinDict.RemoveAt | robin_dict.py:98-101 | tombstoning a matched slot removes exactly its pair; the mean update raises iff `len()` was 2; on success mean_dist is `_remove_from_mean` with the post-delete counter, and on ZeroDivisionError it is unchanged; validity is preserved |
| RobinDict.TombstoneKeepsValid | robin_dict.py:98-101 | tombstoning an occupied slot keeps the table valid when the new mean is at most 0: the slot stays in every run it was part of, as a tombstone |
| RobinDict.OccupiedFrom | robin_dict.py:111-112 | the occupied slot indices from i on, strictly increasing, each occupied, and every occupied index from i on listed |
| RobinDict.Iter | robin_dict.py:110-113 | yields the keys in slot order: the j-th key is the key of the j-th occupied slot, so there is one key per occupied slot; every yielded key is stored, and every stored key is yielded |
| RobinDict.InitialCapacity | robin_dict.py:50 | for n keyword arguments the capacity is at least 10 and at least floor(3n / 2), and it exceeds 10 only when it equals floor(3n / 2) |
| RobinDict.EmptyTable | robin_dict.py:50-53 | the fresh table has only empty slots, no pairs, no tombstones, `len()` 0, mean_dist 1 and max_dist 1 |
| RobinDict.SetAll | robin_dict.py:55-56 | setting items in order keeps the table valid; on success the stored pairs gain exactly the items and `len()` grows by 2 per item; the only failure is TypeError |
| RobinDict.New | robin_dict.py:49-56 | the capacity depends on the keyword arguments only; the table is valid; on success it stores exactly `base` when that is non-empty and the keyword arguments otherwise, with `len()` twice their number |
| RobinDictFacts.StoredEntryInWindow | robin_dict.py:134-140 | in a valid table, the slot of every stored entry is in the search window of its home |
| RobinDictFacts.WindowIsHomeRun | robin_dict.py:134-140 | in a valid table the window of home h holds exactly the untombstoned indices from h to h + max_dist |
| RobinDictFacts.StoredKeyIsFound | robin_dict.py:72-105 | in a valid table, the walk for a stored key stops at a match, so `__getitem__` returns a value and `__delitem__` removes an entry (or raises ZeroDivisionError after removing it) |
| RobinDictFacts.WalkReachesEntry | robin_dict.py:76-87 | a walk that lists index i before any larger index, where every index from h up to i is occupied or skipped, stops at a match no later than i |
| RobinDictFacts.GetItemSound | robin_dict.py:72-87 | a value returned by `__getitem__` is stored under that key |
| RobinDictFacts.DelItemAgreesWithGetItem | robin_dict.py:72-105 | delete succeeds exactly when lookup does, removes the very pair lookup returns, and otherwise raises lookup's error with the table unchanged |
| RobinDictFacts.SetSucceedsWithEmptySlotAhead | robin_dict.py:58-70 | in a valid table, when some slot at or after the key's home is empty, `set` succeeds: each evicted entry is re-placed from a smaller home with that empty slot still ahead |
| RobinDictFacts.SetIntoEmptySlot | robin_dict.py:58-70 | when the first free slot is empty, `set` writes that one slot and nothing else |
| RobinDictFacts.SetStealsOnce | robin_dict.py:58-70 | when `set` evicts one entry and the evicted entry then lands in an empty slot j, those two writes are the whole effect |
| RobinDictFacts.FirstSetOfHome | robin_dict.py:58-70 | into a table with nothing stored, `set` succeeds, writes exactly the key's home slot, and leaves the next slot empty |
| RobinDictFacts.SecondSetOfHome | robin_dict.py:115-118 | when slot `h` holds an entry of home `h` and slot `h + 1` is empty if it exists, `set` of a key of home `h` succeeds exactly when `h + 1` is inside the array; otherwise the scan runs off the end and `set` raises TypeError |
| RobinDictFacts.SetTwiceKeepsBoth | robin_dict.py:58-70 | setting one key twice in an empty table: the first set always succeeds; the second succeeds exactly when the slot after the key's home exists, since slot `h` holds an entry of the same home and nothing wraps around; when it succeeds both pairs are kept and `len()` is 4 |
| RobinDictFacts.SetThenDeleteLen | robin_dict.py:107-108 | a set followed by a successful delete of the same key leaves `len()` one above its starting value |
| RobinDictExample.FreshWindow | robin_dict.py:134-140 | with the initial mean_dist of 1 (robin_dict.py:52), the window of home 9 in a fresh 10-slot table is [10, 9] |
| RobinDictExample.FreshLookupIndexError | robin_dict.py:72-87 | looking up a key of home 9 in a fresh 10-slot table raises IndexError(10), because the window's first index is past the array |
| RobinDictExample.HomeRunsNotSorted | robin_dict.py:58-70 | building `RobinHoodDict({5: 0, 3: 0, 13: 0, 4: 0})` inserts homes 5, 3, 3, 4 into 10 slots and leaves the homes 3, 4, 5, 3 in slots 3 to 6: runs of home indices are not sorted |

## Left out

- `print` calls (robin_dict.py:61, 75, 78): console output with no effect on the table.
- Python's `hash()` is a function parameter, not a model of Python's hashing.
- `_compare_keys` is modelled as `==` inside `Matches`. Python's identity test `is` cannot be expressed, and for ordinary keys it implies `==`.
- Floating point. The float division in `_add_to_mean` and the initial capacity `len(kwargs) // (2/3)` are modelled in exact integer arithmetic. Float rounding is not modelled.
- Python's recursion limit. A long eviction cascade could exceed it, and the model has no such limit.
- The `MutableMapping` mixin methods (`update`, `pop`, `keys`, ...) are inherited and not part of this code.
- Resizing, rehashing, recomputing `max_dist` after a delete, and a three-state slot tag are not implemented by the code, so they are not modelled.
- `__len__` is `Len`. It has no contract of its own: how it changes is stated by `SetItem`, `DelItem`, `SetAll`, `New` and `SetThenDeleteLen`.
- SetItem: requires `Valid`, which Python does not check. Every table built by `New` and changed by `SetItem`, `SetAll` or `DelItem` satisfies it, and the cascade's termination measure (the home index, which strictly drops) depends on it.
- SetAll: requires `Valid` for the same reason as `SetItem`.
- GetItem: requires a non-empty slot array, which `__init__` guarantees (at least 10 slots). With zero slots Python's `%` would raise `ZeroDivisionError`.
- DelItem: requires a non-empty slot array, for the same reason as `GetItem`.
- AddToMean: requires `n_full > 0`. With `n_full == 0` Python raises `ZeroDivisionError`, but `n_full` is at least 2 after every write to a valid table.
- Place: requires that `idx` is the slot `_find_bucket` returned, which is the only slot `__setitem__` writes.
- RemoveAt: requires the matched index to be at or above the home `h`. Every index of the search window is.

=== FILE: buckets.dfy ===
/**
  The slot array of the Robin Hood table (`BucketList` in robin_dict.py).

  It is a Python list of optional `RobinValue`s that also keeps a fill counter
  `n_full` and the set `deleted` of tombstoned indices.  There is no third slot
  tag: a tombstone is a `None` slot whose index is in `deleted`.
*/
module Buckets {

  import opened Options

  /** One stored entry: the home index it was inserted under, its key and its value. */
  datatype RobinValue<K, V> = RobinValue(hash: int, key: K, value: V)

  /** `Optional[RobinValue]`: `None` is an empty slot or a tombstone. */
  type Bucket<K, V> = Option<RobinValue<K, V>>

  datatype BucketList<K, V> = BucketList(slots: seq<Bucket<K, V>>, nFull: int, deleted: set<int>)

  /** Every tombstoned index lies inside the array and holds `None`. */
  ghost predicate TombstonesEmpty<K, V>(b: BucketList<K, V>) {
    forall i :: i in b.deleted ==> 0 <= i < |b.slots| && b.slots[i].None?
  }

  /** Number of occupied slots. */
  function CountFull<K, V>(s: seq<Bucket<K, V>>): (n: nat)
    ensures n <= |s|
  {
    if |s| == 0 then 0 else (if s[0].Some? then 1 else 0) + CountFull(s[1..])
  }

  /** The (key, value) pair a slot holds, as a multiset of zero or one element. */
  ghost function PairOf<K, V>(b: Bucket<K, V>): multiset<(K, V)> {
    if b.Some? then multiset{(b.value.key, b.value.value)} else multiset{}
  }

  /** The multiset of (key, value) pairs stored in the slots. */
  ghost function Pairs<K, V>(s: seq<Bucket<K, V>>): multiset<(K, V)> {
    if |s| == 0 then multiset{} else PairOf(s[0]) + Pairs(s[1..])
  }

  /** A list of `n` empty slots, as built by `repeat(EMPTY, n)` (robin_dict.py:51). */
  function Fresh<K, V>(n: nat): (b: BucketList<K, V>)
    ensures |b.slots| == n
    ensures CountFull(b.slots) == 0 && Pairs(b.slots) == multiset{}
    ensures b.nFull == 0 && b.deleted == {}
  {
    var s: seq<Bucket<K, V>> := seq(n, _ => None);
    NoneCountsNothing(s);
    BucketList(s, 0, {})
  }

  /**
    `BucketList.__setitem__`: overwrite slot `idx`, drop `idx` from the
    tombstones, and move the counter by the delta of robin_dict.py:30, which is
    twice the change in the number of occupied slots.
  */
  function Write<K, V>(b: BucketList<K, V>, idx: int, value: Bucket<K, V>): (r: BucketList<K, V>)
    requires 0 <= idx < |b.slots|
    ensures r.slots == b.slots[idx := value]
    ensures r.deleted == b.deleted - {idx}
    ensures r.nFull - b.nFull == 2 * (CountFull(r.slots) - CountFull(b.slots))
    ensures b.slots[idx].None? && value.Some? ==> r.nFull == b.nFull + 2
    ensures b.slots[idx].Some? && value.Some? ==> r.nFull == b.nFull
    ensures Pairs(r.slots) + PairOf(b.slots[idx]) == Pairs(b.slots) + PairOf(value)
    ensures TombstonesEmpty(b) ==> TombstonesEmpty(r)
  {
    UpdateCount(b.slots, idx, value);
    UpdatePairs(b.slots, idx, value);
    var delta := (if b.slots[idx].Some? then -1 else 1) + (if value.Some? then 1 else -1);
    BucketList(b.slots[idx := value], b.nFull + delta, b.deleted - {idx})
  }

  /**
    `BucketList.__delitem__`: the slot becomes `None`, its index becomes a
    tombstone, and the counter drops by one exactly when the slot was occupied.
  */
  function Delete<K, V>(b: BucketList<K, V>, idx: int): (r: BucketList<K, V>)
    requires 0 <= idx < |b.slots|
    ensures r.slots == b.slots[idx := None]
    ensures r.deleted == b.deleted + {idx}
    ensures r.nFull - b.nFull == CountFull(r.slots) - CountFull(b.slots)
    ensures b.slots[idx].Some? ==> r.nFull == b.nFull - 1
    ensures b.slots[idx].None? ==> r.nFull == b.nFull
    ensures Pairs(r.slots) + PairOf(b.slots[idx]) == Pairs(b.slots)
    ensures TombstonesEmpty(b) ==> TombstonesEmpty(r)
  {
    UpdateCount(b.slots, idx, None);
    UpdatePairs(b.slots, idx, None);
    BucketList(b.slots[idx := None], if b.slots[idx].Some? then b.nFull - 1 else b.nFull, b.deleted + {idx})
  }

  lemma {:induction false} NoneCountsNothing<K, V>(s: seq<Bucket<K, V>>)
    requires forall i :: 0 <= i < |s| ==> s[i].None?
    ensures CountFull(s) == 0 && Pairs(s) == multiset{}
  {
    if |s| > 0 {
      NoneCountsNothing(s[1..]);
    }
  }

  /** The converse: an occupancy count of 0 means every slot is empty. */
  lemma {:induction false} NothingCountedIsNone<K, V>(s: seq<Bucket<K, V>>)
    requires CountFull(s) == 0
    ensures forall i :: 0 <= i < |s| ==> s[i].None?
  {
    if |s| > 0 {
      NothingCountedIsNone(s[1..]);
      assert forall i :: 1 <= i < |s| ==> s[i] == s[1..][i - 1];
    }
  }

  /** Overwriting one slot changes the occupancy by the difference of the two slot states. */
  lemma {:induction false} UpdateCount<K, V>(s: seq<Bucket<K, V>>, i: int, v: Bucket<K, V>)
    requires 0 <= i < |s|
    ensures CountFull(s[i := v]) + (if s[i].Some? then 1 else 0) == CountFull(s) + (if v.Some? then 1 else 0)
    decreases |s|
  {
    if i > 0 {
      assert s[i := v][1..] == s[1..][i - 1 := v];
      UpdateCount(s[1..], i - 1, v);
    } else {
      assert s[i := v][1..] == s[1..];
    }
  }

  /** Overwriting one slot removes its old pair and adds the new one. */
  lemma {:induction false} UpdatePairs<K, V>(s: seq<Bucket<K, V>>, i: int, v: Bucket<K, V>)
    requires 0 <= i < |s|
    ensures Pairs(s[i := v]) + PairOf(s[i]) == Pairs(s) + PairOf(v)
    decreases |s|
  {
    if i > 0 {
      assert s[i := v][1..] == s[1..][i - 1 := v];
      UpdatePairs(s[1..], i - 1, v);
      var head, changed := PairOf(s[0]), Pairs(s[1..][i - 1 := v]);
      assert Pairs(s[i := v]) == head + changed;
      assert PairOf(s[i]) == PairOf(s[1..][i - 1]);
      assert changed + PairOf(s[i]) == Pairs(s[1..]) + PairOf(v);
      assert (head + changed) + PairOf(s[i]) == head + (Pairs(s[1..]) + PairOf(v));
    } else {
      assert s[i := v][1..] == s[1..];
    }
  }

  /** A run of occupied slots [lo, hi] counts at least its length toward the occupancy. */
  lemma {:induction false} OccupiedRunCounted<K, V>(s: seq<Bucket<K, V>>, lo: int, hi: int)
    requires 0 <= lo <= hi < |s|
    requires forall j :: lo <= j <= hi ==> s[j].Some?
    ensures hi - lo + 1 <= CountFull(s)
    decreases |s|
  {
    if lo == 0 {
      if hi > 0 {
        assert forall j :: 0 <= j <= hi - 1 ==> s[1..][j] == s[j + 1];
        OccupiedRunCounted(s[1..], 0, hi - 1);
      }
    } else {
      assert forall j :: lo - 1 <= j <= hi - 1 ==> s[1..][j] == s[j + 1];
      OccupiedRunCounted(s[1..], lo - 1, hi - 1);
    }
  }

  /** Each occupied slot contributes exactly one pair. */
  lemma {:induction false} PairsSize<K, V>(s: seq<Bucket<K, V>>)
    ensures |Pairs(s)| == CountFull(s)
  {
    if |s| > 0 {
      PairsSize(s[1..]);
    }
  }

  /** Slot `b` is occupied by the pair (key, value). */
  ghost predicate Holds<K, V>(b: Bucket<K, V>, key: K, value: V) {
    b.Some? && b.value.key == key && b.value.value == value
  }

  /** A pair is stored exactly when some occupied slot holds it. */
  lemma {:induction false} PairsMembership<K, V>(s: seq<Bucket<K, V>>, key: K, value: V)
    ensures (key, value) in Pairs(s) <==>
              exists i :: 0 <= i < |s| && Holds(s[i], key, value)
  {
    if |s| > 0 {
      PairsMembership(s[1..], key, value);
      if (key, value) in Pairs(s[1..]) {
        var j :| 0 <= j < |s[1..]| && Holds(s[1..][j], key, value);
        assert s[j + 1] == s[1..][j];
      }
      if exists i :: 0 <= i < |s| && Holds(s[i], key, value) {
        var i :| 0 <= i < |s| && Holds(s[i], key, value);
        if i > 0 {
          assert s[1..][i - 1] == s[i];
        }
      }
    }
  }
}

=== FILE: displacement.dfy ===
/**
  Displacement statistics of the table (robin_dict.py:126-132): the running
  `mean_dist` heuristic that centres the search window.

  Python mixes two kinds of division here.  `_remove_from_mean` uses `//`,
  which floors, and `_add_to_mean` uses float `/` followed by `int()`, which
  truncates toward zero.  Both are written out exactly on integers instead of
  relying on Dafny's Euclidean `/`.
*/
module Displacement {

  import opened Options

  /** Python's integer `a // b`: the quotient rounded toward minus infinity. */
  function FloorDiv(a: int, b: int): (q: int)
    requires b != 0
    ensures b > 0 ==> b * q <= a < b * q + b
    ensures b < 0 ==> b * q + b < a <= b * q
  {
    if b > 0 then DivBounds(a, b); a / b else DivBounds(-a, -b); (-a) / (-b)
  }

  /** `int(a / b)` for a positive `b`: the exact quotient rounded toward zero. */
  function TruncDiv(a: int, b: int): (q: int)
    requires b > 0
    ensures 0 <= a ==> 0 <= b * q <= a < b * q + b
    ensures a < 0 ==> b * q - b < a <= b * q <= 0
  {
    if a >= 0 then NonNegativeQuotient(a, b); a / b else NegatedQuotient(a, b); -((-a) / b)
  }

  lemma NonNegativeQuotient(a: int, b: int)
    requires 0 <= a && 0 < b
    ensures 0 <= b * (a / b) <= a < b * (a / b) + b
  {
  }

  /** Rounding the magnitude down rounds a negative quotient up, toward zero. */
  lemma NegatedQuotient(a: int, b: int)
    requires a < 0 < b
    ensures var q := -((-a) / b); b * q - b < a <= b * q <= 0
  {
  }

  /** Euclidean division by a positive divisor rounds down. */
  lemma DivBounds(a: int, b: int)
    requires b > 0
    ensures b * (a / b) <= a < b * (a / b) + b
  {
  }

  /**
    `_add_to_mean`: `int((mean + distance / n_full) / 2)`.  Exactly, this is the
    truncation of the rational (mean * n_full + distance) / (2 * n_full).
  */
  function AddToMean(mean: int, distance: int, nFull: int): (m: int)
    requires nFull > 0
    ensures 0 <= mean * nFull + distance ==>
              2 * nFull * m <= mean * nFull + distance < 2 * nFull * m + 2 * nFull
    ensures mean * nFull + distance < 0 ==>
              2 * nFull * m - 2 * nFull < mean * nFull + distance <= 2 * nFull * m
  {
    TruncDiv(mean * nFull + distance, 2 * nFull)
  }

  /**
    `_remove_from_mean`: `(mean * n_full - distance) // (n_full - 1)`, or `None`
    when the divisor is zero and Python raises `ZeroDivisionError`.
  */
  function RemoveFromMean(mean: int, distance: int, nFull: int): (m: Option<int>)
    ensures m.None? <==> nFull == 1
    ensures nFull > 1 ==> (nFull - 1) * m.value <= mean * nFull - distance < (nFull - 1) * m.value + (nFull - 1)
    ensures nFull < 1 ==> (nFull - 1) * m.value + (nFull - 1) < mean * nFull - distance <= (nFull - 1) * m.value
  {
    if nFull == 1 then None else Some(FloorDiv(mean * nFull - distance, nFull - 1))
  }

  /**
    After a write the mean is never positive.  When the new displacement is
    smaller than the number of occupied slots (the write's run from the home is
    all occupied) and the counter is at least twice that number, the rational
    mean is below 1 and truncates to at most 0, starting from a mean of at most 1.
  */
  lemma AddToMeanNotPositive(mean: int, distance: int, nFull: int, occupied: int)
    requires mean <= 1 && 0 <= distance && distance + 1 <= occupied && 2 * occupied <= nFull
    ensures AddToMean(mean, distance, nFull) <= 0
  {
    var m := AddToMean(mean, distance, nFull);
    if mean <= 0 {
      MulMonotone(mean, 0, nFull);
    }
    assert mean * nFull + distance < 2 * nFull;
    if m >= 1 {
      MulMonotone(1, m, 2 * nFull);
      assert false;
    }
  }

  /** Removing a non-negative displacement from a non-positive mean keeps it non-positive. */
  lemma RemoveFromMeanNotPositive(mean: int, distance: int, nFull: int)
    requires mean <= 0 && 0 <= distance && 1 <= nFull
    ensures var m := RemoveFromMean(mean, distance, nFull); m.Some? ==> m.value <= 0
  {
    var m := RemoveFromMean(mean, distance, nFull);
    if m.Some? {
      MulMonotone(mean, 0, nFull);
      if m.value >= 1 {
        MulMonotone(1, m.value, nFull - 1);
        assert false;
      }
    }
  }

  lemma MulMonotone(x: int, y: int, c: int)
    requires 0 <= c && x <= y
    ensures c * x <= c * y
  {
  }
}

=== FILE: options.dfy ===
/** Python's `Optional[T]`: a value or `None`. */
module Options {

  datatype Option<+T> = None | Some(value: T)
}

=== FILE: robin_dict.dfy ===
/**
  `RobinHoodDict` (robin_dict.py:44-140): an open-addressed Robin Hood hash
  table of fixed capacity, over the slot array of module Buckets.

  Python's built-in `hash()` is the parameter `hash` of every operation.  A
  mutating call returns `Done(table)`, or `Raised(error, table)` with the
  state the table is left in when Python raises part-way through.
*/
module RobinDict {

  import opened Options
  import opened Buckets
  import opened Displacement
  import opened SearchWindow

  /** The exceptions the table's operations can raise. */
  datatype Error =
    | KeyError              // the key was not found by `__getitem__` / `__delitem__`
    | IndexError(index: int) // the search window ran past the end of the slot array
    | TypeError             // `_find_bucket` found no slot, and unpacking its `None` failed
    | ZeroDivisionError     // `_remove_from_mean` divided by `n_full - 1 == 0`

  datatype Table<K, V> = Table(buckets: BucketList<K, V>, meanDist: int, maxDist: int)

  datatype Step<K, V> = Done(table: Table<K, V>) | Raised(error: Error, table: Table<K, V>)

  datatype Result<T> = Ok(value: T) | Err(error: Error)

  const MinCapacity: nat := 10

  /** `_compute_hash`: the home index `hash(key) % len(buckets)`. */
  function ComputeHash<K>(hash: K -> int, capacity: int, key: K): (h: int)
    requires capacity > 0
    ensures 0 <= h < capacity
  {
    hash(key) % capacity
  }

  /** The entry in occupied slot `i` sits at or after its home, at most `maxDist` away. */
  ghost predicate Placed<K, V>(t: Table<K, V>, hash: K -> int, i: int)
    requires 0 <= i < |t.buckets.slots| && t.buckets.slots[i].Some?
  {
    var e := t.buckets.slots[i].value;
    && e.hash == ComputeHash(hash, |t.buckets.slots|, e.key)
    && e.hash <= i <= e.hash + t.maxDist
  }

  /**
    What every table reachable through the operations satisfies: tombstones are
    `None` slots, each stored `hash` field is its key's home index, every
    displacement lies in [0, max_dist], max_dist >= 1, the counter is at least
    twice the occupancy (it gains 2 per insertion and loses 1 per deletion),
    `mean_dist` is at most 0 once anything was stored, and the run from each
    entry's home up to its slot has no empty slot that is not a tombstone.
  */
  ghost predicate Valid<K, V>(t: Table<K, V>, hash: K -> int) {
    && |t.buckets.slots| > 0
    && TombstonesEmpty(t.buckets)
    && (forall i :: 0 <= i < |t.buckets.slots| && t.buckets.slots[i].Some? ==> Placed(t, hash, i))
    && 1 <= t.maxDist
    && 2 * CountFull(t.buckets.slots) <= t.buckets.nFull
    && MeanLow(t)
    && RunsFilled(t)
  }

  /**
    `mean_dist` starts at 1 and the first write brings it to at most 0, where
    every later update keeps it.
  */
  ghost predicate MeanLow<K, V>(t: Table<K, V>) {
    t.meanDist <= 0 || (t.meanDist == 1 && CountFull(t.buckets.slots) == 0)
  }

  /** Every slot from an entry's home up to its slot is occupied or a tombstone. */
  ghost predicate RunsFilled<K, V>(t: Table<K, V>) {
    forall i, j :: InRunOf(t, i, j) ==> t.buckets.slots[j].Some? || j in t.buckets.deleted
  }

  /** Index `j` lies at or after the home of the entry in slot `i`, and before `i`. */
  ghost predicate InRunOf<K, V>(t: Table<K, V>, i: int, j: int) {
    0 <= i < |t.buckets.slots| && t.buckets.slots[i].Some? && 0 <= t.buckets.slots[i].value.hash <= j < i
  }

  /** The stop condition of `_find_bucket`: an empty slot, or one holding a poorer home. */
  predicate Free<K, V>(b: Bucket<K, V>, h: int) {
    b.None? || b.value.hash < h
  }

  /**
    `_find_bucket(h)`: the least index at or after `h` whose slot is free for
    home `h`; `None` when there is none before the end of the array (no
    wrap-around).
  */
  function FindBucket<K, V>(slots: seq<Bucket<K, V>>, h: int): (r: Option<int>)
    requires 0 <= h
    ensures r.Some? ==> h <= r.value < |slots| && Free(slots[r.value], h)
    ensures r.Some? ==> forall j :: h <= j < r.value ==> !Free(slots[j], h)
    ensures r.None? ==> forall j :: h <= j < |slots| ==> !Free(slots[j], h)
  {
    FirstFree(slots, h, h)
  }

  /** The scan of `_find_bucket` resumed at index `i`, every slot in [h, i) already passed. */
  function FirstFree<K, V>(slots: seq<Bucket<K, V>>, h: int, i: int): (r: Option<int>)
    requires 0 <= h <= i
    requires forall j :: h <= j < i && j < |slots| ==> !Free(slots[j], h)
    ensures r.Some? ==> i <= r.value < |slots| && Free(slots[r.value], h)
    ensures r.Some? ==> forall j :: h <= j < r.value ==> !Free(slots[j], h)
    ensures r.None? ==> forall j :: h <= j < |slots| ==> !Free(slots[j], h)
    decreases |slots| - i
  {
    if i >= |slots| then None
    else if Free(slots[i], h) then Some(i)
    else FirstFree(slots, h, i + 1)
  }

  /**
    `__setitem__` together with its eviction cascade.  The second component
    counts the `__setitem__` calls of the cascade.

    On `Done` the stored pairs gain exactly (key, val), even when `key` is
    already stored; one more slot is occupied and the counter grows by 2.  On
    `Raised` (a `TypeError` when no free slot is left) exactly one pair has been
    lost: the one being placed when the scan ran off the end.  Each recursive
    call re-places an entry whose home is strictly smaller, so at most h + 1
    calls are made.
  */
  function SetItem<K(==), V>(t: Table<K, V>, hash: K -> int, key: K, val: V): (r: (Step<K, V>, nat))
    requires Valid(t, hash)
    ensures Valid(r.0.table, hash)
    ensures |r.0.table.buckets.slots| == |t.buckets.slots|
    ensures t.maxDist <= r.0.table.maxDist
    ensures r.0.table.buckets.deleted <= t.buckets.deleted
    ensures 1 <= r.1 <= ComputeHash(hash, |t.buckets.slots|, key) + 1
    ensures FindBucket(t.buckets.slots, ComputeHash(hash, |t.buckets.slots|, key)).None? ==> r.0 == Raised(TypeError, t)
    ensures r.0.Done? ==> Pairs(r.0.table.buckets.slots) == Pairs(t.buckets.slots) + multiset{(key, val)}
    ensures r.0.Done? ==> CountFull(r.0.table.buckets.slots) == CountFull(t.buckets.slots) + 1
    ensures r.0.Done? ==> Len(r.0.table) == Len(t) + 2
    ensures r.0.Raised? ==> r.0.error == TypeError && Len(r.0.table) == Len(t)
    ensures r.0.Raised? ==> |Pairs(r.0.table.buckets.slots)| == |Pairs(t.buckets.slots)|
    ensures r.0.Raised? ==> Pairs(r.0.table.buckets.slots) <= Pairs(t.buckets.slots) + multiset{(key, val)}
    decreases ComputeHash(hash, |t.buckets.slots|, key)
  {
    var slots := t.buckets.slots;
    var h := ComputeHash(hash, |slots|, key);
    match FindBucket(slots, h)
    case None => (Raised(TypeError, t), 1)
    case Some(idx) =>
      var bucket := slots[idx];
      var t1 := Place(t, hash, key, val, idx);
      if bucket.Some? then
        var e := bucket.value;
        assert Placed(t, hash, idx);
        assert Pairs(t1.buckets.slots) + multiset{(e.key, e.value)} == Pairs(slots) + multiset{(key, val)};
        assert Len(t1) == Len(t) && CountFull(t1.buckets.slots) == CountFull(slots);
        PairsSize(slots);
        PairsSize(t1.buckets.slots);
        var rest := SetItem(t1, hash, bucket.value.key, bucket.value.value);
        (rest.0, rest.1 + 1)
      else
        (Done(t1), 1)
  }

  /**
    One write of `__setitem__` (robin_dict.py:62-66): store (key, val) under
    its home in slot `idx` and update `mean_dist` and `max_dist`.  The table
    stays valid because the new displacement becomes part of `max_dist`.
  */
  function Place<K, V>(t: Table<K, V>, hash: K -> int, key: K, val: V, idx: int): (r: Table<K, V>)
    requires Valid(t, hash)
    requires FindBucket(t.buckets.slots, ComputeHash(hash, |t.buckets.slots|, key)) == Some(idx)
    ensures Valid(r, hash)
    ensures var h := ComputeHash(hash, |t.buckets.slots|, key);
      && r.buckets == Write(t.buckets, idx, Some(RobinValue(h, key, val)))
      && r.maxDist == Max(t.maxDist, idx - h)
      && 2 <= r.buckets.nFull && r.meanDist == AddToMean(t.meanDist, idx - h, r.buckets.nFull)
      && r.meanDist <= 0
  {
    var h := ComputeHash(hash, |t.buckets.slots|, key);
    var b1 := Write(t.buckets, idx, Some(RobinValue(h, key, val)));
    var distance := idx - h;
    OccupiedRunCounted(b1.slots, h, idx);
    AddToMeanNotPositive(t.meanDist, distance, b1.nFull, CountFull(b1.slots));
    var mean := AddToMean(t.meanDist, distance, b1.nFull);
    WriteKeepsValid(t, hash, h, key, val, idx, mean);
    Table(b1, mean, Max(t.maxDist, distance))
  }

  /**
    Writing (key, val) into the slot `_find_bucket` chose keeps the table
    valid once `max_dist` covers the new displacement and the mean is
    non-positive: every slot from the home up to `idx` is now occupied.
  */
  lemma WriteKeepsValid<K, V>(t: Table<K, V>, hash: K -> int, h: int, key: K, val: V, idx: int, mean: int)
    requires Valid(t, hash) && h == ComputeHash(hash, |t.buckets.slots|, key)
    requires FindBucket(t.buckets.slots, h) == Some(idx) && mean <= 0
    ensures Valid(Table(Write(t.buckets, idx, Some(RobinValue(h, key, val))), mean, Max(t.maxDist, idx - h)), hash)
  {
    var b1 := Write(t.buckets, idx, Some(RobinValue(h, key, val)));
    var t1 := Table(b1, mean, Max(t.maxDist, idx - h));
    OccupiedIsCounted(b1.slots, idx);
    forall i | 0 <= i < |b1.slots| && b1.slots[i].Some?
      ensures Placed(t1, hash, i)
    {
      if i != idx {
        assert Placed(t, hash, i);
      }
    }
    forall i, j | InRunOf(t1, i, j)
      ensures b1.slots[j].Some? || j in b1.deleted
    {
      if i != idx && j != idx {
        assert InRunOf(t, i, j);
      }
    }
  }

  /** An occupied slot makes the occupancy positive. */
  lemma OccupiedIsCounted<K, V>(s: seq<Bucket<K, V>>, i: int)
    requires 0 <= i < |s| && s[i].Some?
    ensures 1 <= CountFull(s)
  {
    UpdateCount(s, i, None);
  }

  /** `__len__`: the fill counter, which grows by 2 per insertion. */
  function Len<K, V>(t: Table<K, V>): int {
    t.buckets.nFull
  }

  /** Where a scan of the search window stopped. */
  datatype Probe = Match(pos: nat) | HitNone(pos: nat) | PastEnd(pos: nat) | Exhausted

  /** Slot `b` holds an entry of home `h` whose key equals `key` (`_compare_keys`). */
  predicate Matches<K(==), V>(b: Bucket<K, V>, h: int, key: K) {
    b.Some? && b.value.hash == h && b.value.key == key
  }

  /** Window positions [0, p) are all in range, occupied and not a match for (h, key). */
  ghost predicate Passed<K, V>(slots: seq<Bucket<K, V>>, w: seq<int>, h: int, key: K, p: int) {
    && 0 <= p <= |w|
    && forall q :: 0 <= q < p ==>
         0 <= w[q] < |slots| && slots[w[q]].Some? && !Matches(slots[w[q]], h, key)
  }

  /**
    The loop shared by `__getitem__` and `__delitem__` (robin_dict.py:76-87,
    92-105): walk the window from position `p` and stop at the first match, the
    first `None` slot, or the first index past the array.
  */
  function ProbeWindow<K(==), V>(slots: seq<Bucket<K, V>>, w: seq<int>, h: int, key: K, p: nat): (r: Probe)
    requires forall k :: 0 <= k < |w| ==> 0 <= w[k]
    requires Passed(slots, w, h, key, p)
    ensures r.Match? ==> Passed(slots, w, h, key, r.pos) && r.pos < |w|
                         && w[r.pos] < |slots| && Matches(slots[w[r.pos]], h, key)
    ensures r.HitNone? ==> Passed(slots, w, h, key, r.pos) && r.pos < |w|
                           && w[r.pos] < |slots| && slots[w[r.pos]].None?
    ensures r.PastEnd? ==> Passed(slots, w, h, key, r.pos) && r.pos < |w| && |slots| <= w[r.pos]
    ensures r.Exhausted? ==> Passed(slots, w, h, key, |w|)
    decreases |w| - p
  {
    if p == |w| then Exhausted
    else if w[p] >= |slots| then PastEnd(p)
    else if slots[w[p]].None? then HitNone(p)
    else if Matches(slots[w[p]], h, key) then Match(p)
    else ProbeWindow(slots, w, h, key, p + 1)
  }

  /** The search window of home `h` in table `t`. */
  function Window<K, V>(t: Table<K, V>, h: int): seq<int>
    requires 0 <= h
  {
    SmartSearchIndexes(h, t.meanDist, t.maxDist, t.buckets.deleted)
  }

  /**
    `__getitem__`: the value of the first slot of the window that holds (h, key),
    provided every earlier window slot was occupied by something else;
    `KeyError` when a `None` slot comes first or the window runs out;
    `IndexError` when an index past the array comes first.  The table is not
    changed (the result carries no table).
  */
  function GetItem<K(==), V>(t: Table<K, V>, hash: K -> int, key: K): (r: Result<V>)
    requires |t.buckets.slots| > 0
    ensures var s := t.buckets.slots; var h := ComputeHash(hash, |s|, key); var w := Window(t, h);
      && (r.Ok? ==> exists p :: Passed(s, w, h, key, p) && p < |w| && w[p] < |s|
                                && s[w[p]] == Some(RobinValue(h, key, r.value)))
      && (r == Err(KeyError) ==> Passed(s, w, h, key, |w|)
                                 || exists p :: Passed(s, w, h, key, p) && p < |w|
                                                && w[p] < |s| && s[w[p]].None?)
      && (r.Err? && r.error != KeyError ==> exists p :: Passed(s, w, h, key, p) && p < |w|
                                                       && |s| <= w[p] && r.error == IndexError(w[p]))
  {
    var s := t.buckets.slots;
    var h := ComputeHash(hash, |s|, key);
    var w := Window(t, h);
    match ProbeWindow(s, w, h, key, 0)
    case Match(p) => Ok(s[w[p]].value.value)
    case HitNone(_) => Err(KeyError)
    case Exhausted => Err(KeyError)
    case PastEnd(p) => Err(IndexError(w[p]))
  }

  /**
    `__delitem__`: tombstone the first slot of the window that holds (h, key),
    drop the counter by 1, and update `mean_dist`; `max_dist` and every other
    slot are unchanged.  A `KeyError` or `IndexError` leaves the table as it
    was.  When the counter reaches 1, `_remove_from_mean` raises
    `ZeroDivisionError` after the slot was already tombstoned.
  */
  function DelItem<K(==), V>(t: Table<K, V>, hash: K -> int, key: K): (r: Step<K, V>)
    requires |t.buckets.slots| > 0
    ensures var s := t.buckets.slots; var h := ComputeHash(hash, |s|, key); var w := Window(t, h);
      && (r.Done? || r.error == ZeroDivisionError ==>
            exists p :: Passed(s, w, h, key, p) && p < |w| && w[p] < |s| && Matches(s[w[p]], h, key)
                        && r.table.buckets.slots == s[w[p] := None]
                        && r.table.buckets.deleted == t.buckets.deleted + {w[p]}
                        && Pairs(r.table.buckets.slots) + multiset{(key, s[w[p]].value.value)} == Pairs(s))
      && (r.Done? || r.error == ZeroDivisionError ==>
            Len(r.table) == Len(t) - 1 && r.table.maxDist == t.maxDist
            && CountFull(r.table.buckets.slots) + 1 == CountFull(s))
      && (r.Raised? && r.error == ZeroDivisionError <==>
            ProbeWindow(s, w, h, key, 0).Match? && Len(t) == 2)
      && (r.Raised? && r.error == KeyError ==>
            r.table == t && (Passed(s, w, h, key, |w|)
                             || exists p :: Passed(s, w, h, key, p) && p < |w|
                                            && w[p] < |s| && s[w[p]].None?))
      && (r.Raised? && r.error.IndexError? ==>
            r.table == t && exists p :: Passed(s, w, h, key, p) && p < |w|
                                        && |s| <= w[p] && r.error == IndexError(w[p]))
    ensures Valid(t, hash) ==> Valid(r.table, hash)
  {
    var s := t.buckets.slots;
    var h := ComputeHash(hash, |s|, key);
    var w := Window(t, h);
    match ProbeWindow(s, w, h, key, 0)
    case Match(p) => RemoveAt(t, hash, h, w[p])
    case HitNone(_) => Raised(KeyError, t)
    case Exhausted => Raised(KeyError, t)
    case PastEnd(p) => Raised(IndexError(w[p]), t)
  }

  /**
    The end of `__delitem__` once slot `i` matched (robin_dict.py:99-101):
    tombstone the slot, then update `mean_dist`, which raises
    `ZeroDivisionError` when the counter has dropped to 1.  Exactly one pair
    and one occupied slot go; `max_dist` stays.
  */
  function RemoveAt<K, V>(t: Table<K, V>, hash: K -> int, h: int, i: int): (r: Step<K, V>)
    requires 0 <= h <= i < |t.buckets.slots| && t.buckets.slots[i].Some?
    ensures r.Done? || r.error == ZeroDivisionError
    ensures r.Raised? <==> Len(t) == 2
    ensures r.table.buckets.slots == t.buckets.slots[i := None]
    ensures r.table.buckets.deleted == t.buckets.deleted + {i}
    ensures Len(r.table) == Len(t) - 1 && r.table.maxDist == t.maxDist
    ensures r.Done? ==> r.table.meanDist == RemoveFromMean(t.meanDist, i - h, Len(r.table)).value
    ensures r.Raised? ==> r.table.meanDist == t.meanDist
    ensures CountFull(r.table.buckets.slots) + 1 == CountFull(t.buckets.slots)
    ensures var e := t.buckets.slots[i].value;
      Pairs(r.table.buckets.slots) + multiset{(e.key, e.value)} == Pairs(t.buckets.slots)
    ensures Valid(t, hash) ==> Valid(r.table, hash)
  {
    var b1 := Delete(t.buckets, i);
    var r := match RemoveFromMean(t.meanDist, i - h, b1.nFull)
      case None => Raised(ZeroDivisionError, Table(b1, t.meanDist, t.maxDist))
      case Some(mean) => Done(Table(b1, mean, t.maxDist));
    assert Valid(t, hash) ==> Valid(r.table, hash) by {
      if Valid(t, hash) {
        OccupiedIsCounted(t.buckets.slots, i);
        RemoveFromMeanNotPositive(t.meanDist, i - h, b1.nFull);
        TombstoneKeepsValid(t, hash, i, r.table.meanDist);
      }
    }
    r
  }

  /**
    Tombstoning an occupied slot keeps the table valid when the new mean is
    non-positive: the slot leaves the runs it was part of as a tombstone.
  */
  lemma TombstoneKeepsValid<K, V>(t: Table<K, V>, hash: K -> int, i: int, mean: int)
    requires Valid(t, hash) && 0 <= i < |t.buckets.slots| && t.buckets.slots[i].Some? && mean <= 0
    ensures Valid(Table(Delete(t.buckets, i), mean, t.maxDist), hash)
  {
    var b1 := Delete(t.buckets, i);
    var t1 := Table(b1, mean, t.maxDist);
    forall j | 0 <= j < |b1.slots| && b1.slots[j].Some?
      ensures Placed(t1, hash, j)
    {
      assert Placed(t, hash, j);
    }
    forall k, j | InRunOf(t1, k, j)
      ensures b1.slots[j].Some? || j in b1.deleted
    {
      assert InRunOf(t, k, j);
    }
  }

  /** Some occupied slot of `s` holds key `k`. */
  ghost predicate KeyStored<K, V>(s: seq<Bucket<K, V>>, k: K) {
    exists i :: 0 <= i < |s| && s[i].Some? && s[i].value.key == k
  }

  /** The indices of the occupied slots at or after `i`, in increasing order. */
  function OccupiedFrom<K, V>(s: seq<Bucket<K, V>>, i: nat): (idx: seq<int>)
    requires i <= |s|
    ensures forall j :: 0 <= j < |idx| ==> i <= idx[j] < |s| && s[idx[j]].Some?
    ensures forall j, k :: 0 <= j < k < |idx| ==> idx[j] < idx[k]
    ensures forall x :: i <= x < |s| && s[x].Some? ==> x in idx
    decreases |s| - i
  {
    if i == |s| then []
    else if s[i].Some? then [i] + OccupiedFrom(s, i + 1)
    else OccupiedFrom(s, i + 1)
  }

  /** The occupied indices from `i` on are as many as the occupied slots of `s[i..]`. */
  lemma {:induction false} OccupiedFromCount<K, V>(s: seq<Bucket<K, V>>, i: nat)
    requires i <= |s|
    ensures |OccupiedFrom(s, i)| == CountFull(s[i..])
    decreases |s| - i
  {
    if i < |s| {
      assert s[i..][1..] == s[i + 1..];
      OccupiedFromCount(s, i + 1);
    }
  }

  /**
    `__iter__`: the keys of the occupied slots in slot order, one per slot, so
    that the j-th key is the key of the j-th occupied slot.
  */
  function Iter<K, V>(t: Table<K, V>): (keys: seq<K>)
    ensures var idx := OccupiedFrom(t.buckets.slots, 0);
      |keys| == |idx| && forall j :: 0 <= j < |keys| ==> keys[j] == t.buckets.slots[idx[j]].value.key
    ensures |keys| == CountFull(t.buckets.slots)
    ensures forall j :: 0 <= j < |keys| ==> KeyStored(t.buckets.slots, keys[j])
    ensures forall i :: 0 <= i < |t.buckets.slots| && t.buckets.slots[i].Some? ==>
              t.buckets.slots[i].value.key in keys
  {
    var s := t.buckets.slots;
    var keys := KeysFrom(s, 0);
    var idx := OccupiedFrom(s, 0);
    OccupiedFromCount(s, 0);
    assert s[0..] == s;
    forall j | 0 <= j < |keys| ensures KeyStored(s, keys[j]) {
      assert s[idx[j]].Some? && s[idx[j]].value.key == keys[j];
    }
    forall i | 0 <= i < |s| && s[i].Some? ensures s[i].value.key in keys {
      var j :| 0 <= j < |idx| && idx[j] == i;
      assert keys[j] == s[i].value.key;
    }
    keys
  }

  /** The keys `__iter__` yields from slot `i` on. */
  function KeysFrom<K, V>(s: seq<Bucket<K, V>>, i: nat): (keys: seq<K>)
    requires i <= |s|
    ensures var idx := OccupiedFrom(s, i);
      |keys| == |idx| && forall j :: 0 <= j < |keys| ==> keys[j] == s[idx[j]].value.key
    decreases |s| - i
  {
    if i == |s| then []
    else if s[i].Some? then [s[i].value.key] + KeysFrom(s, i + 1)
    else KeysFrom(s, i + 1)
  }

  /**
    The initial capacity `max(int(len(kwargs) // (2/3)), 10)` in exact
    arithmetic: the larger of floor(3 n / 2) and 10.
  */
  function InitialCapacity(nKwargs: nat): (cap: nat)
    ensures MinCapacity <= cap
    ensures 3 * nKwargs < 2 * cap + 2
    ensures cap == MinCapacity || 2 * cap <= 3 * nKwargs
  {
    Max(3 * nKwargs / 2, MinCapacity)
  }

  /** The table right after robin_dict.py:50-53, before any item is set. */
  function EmptyTable<K, V>(capacity: nat): (t: Table<K, V>)
    requires 0 < capacity
    ensures |t.buckets.slots| == capacity && Pairs(t.buckets.slots) == multiset{} && Len(t) == 0
    ensures forall i :: 0 <= i < capacity ==> t.buckets.slots[i].None?
    ensures t.buckets.deleted == {} && CountFull(t.buckets.slots) == 0
    ensures t.meanDist == 1 && t.maxDist == 1
  {
    Table(Fresh(capacity), 1, 1)
  }

  /** The table `__init__` starts from satisfies the invariant, whatever the capacity. */
  lemma EmptyTableIsValid<K, V>(capacity: nat, hash: K -> int)
    requires 0 < capacity
    ensures Valid(EmptyTable<K, V>(capacity), hash)
  {
  }

  /** The loop of `__init__` (robin_dict.py:55-56): set each item in order, stopping at the first exception. */
  function SetAll<K(==), V>(t: Table<K, V>, hash: K -> int, items: seq<(K, V)>): (r: Step<K, V>)
    requires Valid(t, hash)
    ensures Valid(r.table, hash)
    ensures |r.table.buckets.slots| == |t.buckets.slots|
    ensures r.Raised? ==> r.error == TypeError
    ensures r.Done? ==> Pairs(r.table.buckets.slots) == Pairs(t.buckets.slots) + multiset(items)
    ensures r.Done? ==> Len(r.table) == Len(t) + 2 * |items|
    decreases |items|
  {
    if |items| == 0 then Done(t)
    else
      var first := SetItem(t, hash, items[0].0, items[0].1).0;
      if first.Raised? then first
      else
        SplitFirst(items);
        SetAll(first.table, hash, items[1..])
  }

  lemma SplitFirst<T>(items: seq<T>)
    requires |items| > 0
    ensures multiset(items) == multiset{items[0]} + multiset(items[1..])
  {
    assert items == [items[0]] + items[1..];
  }

  /**
    `RobinHoodDict.__init__(base, **kwargs)`: the capacity depends on the
    number of keyword arguments only; the items set are `base` when it is
    non-empty and the keyword arguments otherwise.
  */
  function New<K(==), V>(hash: K -> int, base: seq<(K, V)>, kwargs: seq<(K, V)>): (r: Step<K, V>)
    ensures Valid(r.table, hash)
    ensures |r.table.buckets.slots| == InitialCapacity(|kwargs|)
    ensures r.Raised? ==> r.error == TypeError
    ensures r.Done? ==> Pairs(r.table.buckets.slots) == multiset(if |base| > 0 then base else kwargs)
    ensures r.Done? ==> Len(r.table) == 2 * |if |base| > 0 then base else kwargs|
  {
    var items := if |base| > 0 then base else kwargs;
    var t: Table<K, V> := EmptyTable(InitialCapacity(|kwargs|));
    EmptyTableIsValid<K, V>(InitialCapacity(|kwargs|), hash);
    SetAll(t, hash, items)
  }
}

=== FILE: robin_dict_facts.dfy ===
/**
  Properties that relate several operations of the Robin Hood table, or an
  operation and the table invariant `Valid`.
*/
module RobinDictFacts {

  import opened Options
  import opened Buckets
  import opened SearchWindow
  import opened RobinDict

  /**
    Because `max_dist` bounds every displacement and an occupied slot is never a
    tombstone, the search window of an entry's home always lists its slot.
  */
  lemma StoredEntryInWindow<K, V>(t: Table<K, V>, hash: K -> int, i: int)
    requires Valid(t, hash)
    requires 0 <= i < |t.buckets.slots| && t.buckets.slots[i].Some?
    ensures i in Window(t, t.buckets.slots[i].value.hash)
  {
  }

  /**
    In a valid table `mean_dist` is at most 1 and `max_dist` at least 1, so the
    window of home `h` is exactly [h, h + max_dist] without the tombstones.
  */
  lemma WindowIsHomeRun<K, V>(t: Table<K, V>, hash: K -> int, h: int)
    requires Valid(t, hash) && 0 <= h
    ensures forall x :: x in Window(t, h) <==> h <= x <= h + t.maxDist && x !in t.buckets.deleted
  {
  }

  /**
    A stored key is always found: the window walks upward from the home, and
    every slot before the entry is occupied or a tombstone (and so skipped), so
    the walk reaches the entry before any empty slot or the end of the array.
    `__delitem__` of a stored key therefore removes an entry.
  */
  lemma StoredKeyIsFound<K, V>(t: Table<K, V>, hash: K -> int, key: K)
    requires Valid(t, hash)
    requires KeyStored(t.buckets.slots, key)
    ensures var s := t.buckets.slots; var h := ComputeHash(hash, |s|, key);
      ProbeWindow(s, Window(t, h), h, key, 0).Match?
    ensures GetItem(t, hash, key).Ok?
    ensures var d := DelItem(t, hash, key); d.Done? || d.error == ZeroDivisionError
  {
    var s := t.buckets.slots;
    var i :| 0 <= i < |s| && s[i].Some? && s[i].value.key == key;
    assert Placed(t, hash, i);
    var h := ComputeHash(hash, |s|, key);
    var w := Window(t, h);
    OccupiedIsCounted(s, i);
    assert t.meanDist <= 0 && i in w && ListedBeforeLarger(w, i);
    forall j | h <= j < i ensures s[j].Some? || j in t.buckets.deleted {
      assert InRunOf(t, i, j);
    }
    WalkReachesEntry(s, w, h, key, i, t.buckets.deleted);
  }

  /**
    A walk over indices at or above `h` that meets `i` before any larger index,
    where every index in [h, i) holds an entry or is skipped, stops at `i`'s
    match at the latest.
  */
  lemma WalkReachesEntry<K, V>(s: seq<Bucket<K, V>>, w: seq<int>, h: int, key: K, i: int, deleted: set<int>)
    requires forall k :: 0 <= k < |w| ==> h <= w[k] && w[k] !in deleted
    requires 0 <= h <= i < |s| && Matches(s[i], h, key) && i in w && ListedBeforeLarger(w, i)
    requires forall j :: h <= j < i ==> s[j].Some? || j in deleted
    ensures ProbeWindow(s, w, h, key, 0).Match?
  {
    match ProbeWindow(s, w, h, key, 0)
    case Match(_) =>
    case Exhausted =>
    case HitNone(p) =>
    case PastEnd(p) =>
  }

  /** `__getitem__` only ever returns a value stored under that key. */
  lemma GetItemSound<K, V>(t: Table<K, V>, hash: K -> int, key: K)
    requires |t.buckets.slots| > 0
    ensures GetItem(t, hash, key).Ok? ==> (key, GetItem(t, hash, key).value) in Pairs(t.buckets.slots)
  {
    var r := GetItem(t, hash, key);
    if r.Ok? {
      var s := t.buckets.slots;
      var h := ComputeHash(hash, |s|, key);
      var w := Window(t, h);
      var p :| Passed(s, w, h, key, p) && p < |w| && w[p] < |s|
               && s[w[p]] == Some(RobinValue(h, key, r.value));
      assert Holds(s[w[p]], key, r.value);
      PairsMembership(s, key, r.value);
    }
  }

  /**
    `__delitem__` and `__getitem__` walk the same window and stop at the same
    slot: a delete removes the very pair a lookup would return, and fails with
    the error the lookup would raise.
  */
  lemma DelItemAgreesWithGetItem<K, V>(t: Table<K, V>, hash: K -> int, key: K)
    requires |t.buckets.slots| > 0
    ensures var d := DelItem(t, hash, key); var g := GetItem(t, hash, key);
      && (d.Done? || d.error == ZeroDivisionError <==> g.Ok?)
      && (g.Ok? ==> Pairs(d.table.buckets.slots) + multiset{(key, g.value)} == Pairs(t.buckets.slots))
      && (g.Err? ==> d == Raised(g.error, t))
  {
  }

  /**
    An empty slot at or after the key's home guarantees that `__setitem__`
    succeeds.  The first free slot comes no later than it; when that slot held
    an entry, the entry is re-placed from its strictly smaller home, and the
    empty slot is still ahead of it.
  */
  lemma SetSucceedsWithEmptySlotAhead<K, V>(t: Table<K, V>, hash: K -> int, key: K, val: V, j: int)
    requires Valid(t, hash)
    requires ComputeHash(hash, |t.buckets.slots|, key) <= j < |t.buckets.slots| && t.buckets.slots[j].None?
    ensures SetItem(t, hash, key, val).0.Done?
    decreases ComputeHash(hash, |t.buckets.slots|, key)
  {
    var slots := t.buckets.slots;
    var h := ComputeHash(hash, |slots|, key);
    var idx := FindBucket(slots, h).value;
    if slots[idx].Some? {
      var e := slots[idx].value;
      assert Placed(t, hash, idx);
      var t1 := Place(t, hash, key, val, idx);
      assert idx < j && t1.buckets.slots[j].None?;
      SetSucceedsWithEmptySlotAhead(t1, hash, e.key, e.value, j);
    }
  }

  /**
    When the first free slot for the key's home is empty, `__setitem__`
    writes that one slot and nothing else.
  */
  lemma SetIntoEmptySlot<K, V>(t: Table<K, V>, hash: K -> int, key: K, val: V, idx: int)
    requires Valid(t, hash)
    requires var h := ComputeHash(hash, |t.buckets.slots|, key);
      FindBucket(t.buckets.slots, h) == Some(idx) && t.buckets.slots[idx].None?
    ensures var h := ComputeHash(hash, |t.buckets.slots|, key);
      var r := SetItem(t, hash, key, val).0;
      r.Done? && r.table.buckets.slots == t.buckets.slots[idx := Some(RobinValue(h, key, val))]
  {
  }

  /**
    When the first free slot holds a poorer entry `e`, `__setitem__` takes the
    slot and re-places `e` from its own home; if `e` then lands in an empty slot
    `j`, those two writes are the whole effect.
  */
  lemma SetStealsOnce<K, V>(t: Table<K, V>, hash: K -> int, key: K, val: V, idx: int, j: int)
    requires Valid(t, hash)
    requires var h := ComputeHash(hash, |t.buckets.slots|, key);
      && FindBucket(t.buckets.slots, h) == Some(idx) && t.buckets.slots[idx].Some?
      && var s1 := t.buckets.slots[idx := Some(RobinValue(h, key, val))];
         FindBucket(s1, t.buckets.slots[idx].value.hash) == Some(j) && s1[j].None?
    ensures var h := ComputeHash(hash, |t.buckets.slots|, key);
      var r := SetItem(t, hash, key, val).0;
      && r.Done?
      && r.table.buckets.slots == t.buckets.slots[idx := Some(RobinValue(h, key, val))][j := t.buckets.slots[idx]]
  {
  }

  /**
    `set` never checks for an existing equal key. In an empty table the first
    set always succeeds; the second succeeds exactly when the slot after the
    key's home exists (there is no wrap-around), and then both entries are kept
    and the counter reports 4.
  */
  lemma SetTwiceKeepsBoth<K, V>(t: Table<K, V>, hash: K -> int, key: K, v1: V, v2: V)
    requires Valid(t, hash) && Len(t) == 0 && Pairs(t.buckets.slots) == multiset{}
    ensures var h := ComputeHash(hash, |t.buckets.slots|, key);
      var r1 := SetItem(t, hash, key, v1).0;
      && r1.Done?
      && var r2 := SetItem(r1.table, hash, key, v2).0;
         && (r2.Done? <==> h + 1 < |t.buckets.slots|)
         && (r2.Done? ==> Pairs(r2.table.buckets.slots) == multiset{(key, v1), (key, v2)} && Len(r2.table) == 4)
  {
    SetTwiceCounts(t, hash, key, v1, v2);
    FirstSetOfHome(t, hash, key, v1);
    SecondSetOfHome(SetItem(t, hash, key, v1).0.table, hash, key, v2);
  }

  /** Two successful sets of one key into a table with nothing stored keep both pairs. */
  lemma SetTwiceCounts<K, V>(t: Table<K, V>, hash: K -> int, key: K, v1: V, v2: V)
    requires Valid(t, hash) && Len(t) == 0 && Pairs(t.buckets.slots) == multiset{}
    ensures var r1 := SetItem(t, hash, key, v1).0;
      r1.Done? ==>
        var r2 := SetItem(r1.table, hash, key, v2).0;
        r2.Done? ==> Pairs(r2.table.buckets.slots) == multiset{(key, v1), (key, v2)} && Len(r2.table) == 4
  {
  }

  /** Into a table with nothing stored, the first set writes the key's home slot. */
  lemma FirstSetOfHome<K, V>(t: Table<K, V>, hash: K -> int, key: K, val: V)
    requires Valid(t, hash) && Len(t) == 0 && Pairs(t.buckets.slots) == multiset{}
    ensures var h := ComputeHash(hash, |t.buckets.slots|, key);
      var r := SetItem(t, hash, key, val).0;
      && r.Done?
      && r.table.buckets.slots == t.buckets.slots[h := Some(RobinValue(h, key, val))]
      && (h + 1 < |t.buckets.slots| ==> r.table.buckets.slots[h + 1].None?)
  {
    var slots := t.buckets.slots;
    var h := ComputeHash(hash, |slots|, key);
    NothingCountedIsNone(slots);
    assert FindBucket(slots, h) == Some(h) by {
      assert FirstFree(slots, h, h) == Some(h);
    }
    SetIntoEmptySlot(t, hash, key, val, h);
  }

  /**
    A second key of home `h`, set while slot `h` holds an entry of the same home
    and slot `h + 1` is empty if it exists, goes to `h + 1` when there is such a
    slot and raises TypeError otherwise.
  */
  lemma SecondSetOfHome<K, V>(t: Table<K, V>, hash: K -> int, key: K, val: V)
    requires Valid(t, hash)
    requires var h := ComputeHash(hash, |t.buckets.slots|, key);
      && t.buckets.slots[h].Some? && t.buckets.slots[h].value.hash == h
      && (h + 1 < |t.buckets.slots| ==> t.buckets.slots[h + 1].None?)
    ensures var h := ComputeHash(hash, |t.buckets.slots|, key);
      SetItem(t, hash, key, val).0.Done? <==> h + 1 < |t.buckets.slots|
  {
    var s := t.buckets.slots;
    var h := ComputeHash(hash, |s|, key);
    if h + 1 < |s| {
      assert FindBucket(s, h) == Some(h + 1) by {
        assert !Free(s[h], h);
        assert FirstFree(s, h, h + 1) == Some(h + 1);
      }
      SetIntoEmptySlot(t, hash, key, val, h + 1);
    } else {
      assert FindBucket(s, h).None? by {
        assert !Free(s[h], h);
        assert FirstFree(s, h, h + 1) == None;
      }
    }
  }

  /**
    The counter is not the number of stored keys: a set followed by a
    successful delete of the same key leaves `len()` one above where it started.
  */
  lemma SetThenDeleteLen<K, V>(t: Table<K, V>, hash: K -> int, key: K, val: V)
    requires Valid(t, hash)
    ensures var r1 := SetItem(t, hash, key, val).0;
      r1.Done? ==>
        var r2 := DelItem(r1.table, hash, key);
        r2.Done? || r2.error == ZeroDivisionError ==> Len(r2.table) == Len(t) + 1
  {
  }
}

module RobinDictExample {

  import opened Options
  import opened Buckets
  import opened SearchWindow
  import opened RobinDict
  import RobinDictFacts

  function Identity(k: int): int { k }

  /** The home index stored in slot `i`, or -1 for an empty slot. */
  function HomeAt(t: Table<int, int>, i: nat): int
    requires i < |t.buckets.slots|
  {
    if t.buckets.slots[i].Some? then t.buckets.slots[i].value.hash else -1
  }

  /** Slots 3 to 6 of a 10-slot table, as the entries they hold. */
  function Run(t: Table<int, int>): seq<Bucket<int, int>>
    requires |t.buckets.slots| == 10
  {
    t.buckets.slots[3..7]
  }

  /** Slots 3 to 6 of an empty 10-slot array after writing home 5 into slot 5. */
  lemma FirstSlice(s: seq<Bucket<int, int>>, s2: seq<Bucket<int, int>>)
    requires |s| == 10 && forall i :: 0 <= i < 10 ==> s[i].None?
    requires s2 == s[5 := Some(RobinValue(5, 5, 0))]
    ensures s2[3..7] == [None, None, Some(RobinValue(5, 5, 0)), None]
  {
    assert s2[3..7] == [s2[3], s2[4], s2[5], s2[6]];
  }

  /** Slots 3 to 6 after writing key 3 into slot 3. */
  lemma SecondSlice(s: seq<Bucket<int, int>>, s2: seq<Bucket<int, int>>)
    requires |s| == 10 && s[3..7] == [None, None, Some(RobinValue(5, 5, 0)), None]
    requires s2 == s[3 := Some(RobinValue(3, 3, 0))]
    ensures s2[3..7] == [Some(RobinValue(3, 3, 0)), None, Some(RobinValue(5, 5, 0)), None]
  {
    assert s[4] == s[3..7][1] && s[5] == s[3..7][2] && s[6] == s[3..7][3];
    assert s2[3..7] == [s2[3], s2[4], s2[5], s2[6]];
  }

  /** Slots 3 to 6 after writing key 13 of home 3 into slot 4. */
  lemma ThirdSlice(s: seq<Bucket<int, int>>, s2: seq<Bucket<int, int>>)
    requires |s| == 10 && s[3..7] == [Some(RobinValue(3, 3, 0)), None, Some(RobinValue(5, 5, 0)), None]
    requires s2 == s[4 := Some(RobinValue(3, 13, 0))]
    ensures s2[3..7] == [Some(RobinValue(3, 3, 0)), Some(RobinValue(3, 13, 0)), Some(RobinValue(5, 5, 0)), None]
  {
    assert s[3] == s[3..7][0] && s[5] == s[3..7][2] && s[6] == s[3..7][3];
    assert s2[3..7] == [s2[3], s2[4], s2[5], s2[6]];
  }

  lemma Place5(t: Table<int, int>)
    requires Valid(t, Identity) && |t.buckets.slots| == 10
    requires forall i :: 0 <= i < 10 ==> t.buckets.slots[i].None?
    ensures var r := SetItem(t, Identity, 5, 0).0;
      r.Done? && Run(r.table) == [None, None, Some(RobinValue(5, 5, 0)), None]
  {
    var s := t.buckets.slots;
    assert FindBucket(s, 5) == Some(5);
    RobinDictFacts.SetIntoEmptySlot(t, Identity, 5, 0, 5);
    var r := SetItem(t, Identity, 5, 0).0;
    assert r.Done? && r.table.buckets.slots == s[5 := Some(RobinValue(5, 5, 0))];
    FirstSlice(s, r.table.buckets.slots);
  }

  lemma Place3(t: Table<int, int>)
    requires Valid(t, Identity) && |t.buckets.slots| == 10
    requires Run(t) == [None, None, Some(RobinValue(5, 5, 0)), None]
    ensures var r := SetItem(t, Identity, 3, 0).0;
      r.Done? && Run(r.table) == [Some(RobinValue(3, 3, 0)), None, Some(RobinValue(5, 5, 0)), None]
  {
    var s := t.buckets.slots;
    assert s[3] == Run(t)[0];
    assert FindBucket(s, 3) == Some(3);
    RobinDictFacts.SetIntoEmptySlot(t, Identity, 3, 0, 3);
    var r := SetItem(t, Identity, 3, 0).0;
    assert r.Done? && r.table.buckets.slots == s[3 := Some(RobinValue(3, 3, 0))];
    SecondSlice(s, r.table.buckets.slots);
  }

  lemma Place13(t: Table<int, int>)
    requires Valid(t, Identity) && |t.buckets.slots| == 10
    requires Run(t) == [Some(RobinValue(3, 3, 0)), None, Some(RobinValue(5, 5, 0)), None]
    ensures var r := SetItem(t, Identity, 13, 0).0;
      r.Done? && Run(r.table) == [Some(RobinValue(3, 3, 0)), Some(RobinValue(3, 13, 0)), Some(RobinValue(5, 5, 0)), None]
  {
    var s := t.buckets.slots;
    assert s[3] == Run(t)[0] && s[4] == Run(t)[1];
    assert FindBucket(s, 3) == Some(4);
    RobinDictFacts.SetIntoEmptySlot(t, Identity, 13, 0, 4);
    var r := SetItem(t, Identity, 13, 0).0;
    assert r.Done? && r.table.buckets.slots == s[4 := Some(RobinValue(3, 13, 0))];
    ThirdSlice(s, r.table.buckets.slots);
  }

  /**
    In the run [3: home 3, 4: home 3, 5: home 5, 6: empty], a key of home 4
    takes slot 4, and the evicted entry of home 3 then scans past homes 3, 4
    and 5 to the empty slot 6.
  */
  lemma StealFromRun(s: seq<Bucket<int, int>>)
    requires |s| == 10
    requires s[3..7] == [Some(RobinValue(3, 3, 0)), Some(RobinValue(3, 13, 0)), Some(RobinValue(5, 5, 0)), None]
    ensures FindBucket(s, 4) == Some(4) && s[4].Some? && s[4].value.hash == 3
    ensures var s1 := s[4 := Some(RobinValue(4, 4, 0))]; FindBucket(s1, 3) == Some(6) && s1[6].None?
  {
    assert s[3] == s[3..7][0] && s[4] == s[3..7][1] && s[5] == s[3..7][2] && s[6] == s[3..7][3];
    assert FindBucket(s, 4) == Some(4);
    var s1 := s[4 := Some(RobinValue(4, 4, 0))];
    assert s1[3] == s[3] && s1[5] == s[5] && s1[6] == s[6];
    assert FirstFree(s1, 3, 3) == FirstFree(s1, 3, 6);
  }

  lemma Place4(t: Table<int, int>)
    requires Valid(t, Identity) && |t.buckets.slots| == 10
    requires Run(t) == [Some(RobinValue(3, 3, 0)), Some(RobinValue(3, 13, 0)), Some(RobinValue(5, 5, 0)), None]
    ensures var r := SetItem(t, Identity, 4, 0).0;
      r.Done? && Run(r.table) == [Some(RobinValue(3, 3, 0)), Some(RobinValue(4, 4, 0)), Some(RobinValue(5, 5, 0)), Some(RobinValue(3, 13, 0))]
  {
    var s := t.buckets.slots;
    StealFromRun(s);
    RobinDictFacts.SetStealsOnce(t, Identity, 4, 0, 4, 6);
    var r := SetItem(t, Identity, 4, 0).0;
    var s2 := s[4 := Some(RobinValue(4, 4, 0))][6 := s[4]];
    assert r.Done? && r.table.buckets.slots == s2;
    StealSlice(s, s2);
  }

  /** Slots 3 to 6 after the two writes of the fourth insertion. */
  lemma StealSlice(s: seq<Bucket<int, int>>, s2: seq<Bucket<int, int>>)
    requires |s| == 10
    requires s[3..7] == [Some(RobinValue(3, 3, 0)), Some(RobinValue(3, 13, 0)), Some(RobinValue(5, 5, 0)), None]
    requires s2 == s[4 := Some(RobinValue(4, 4, 0))][6 := s[4]]
    ensures s2[3..7] == [Some(RobinValue(3, 3, 0)), Some(RobinValue(4, 4, 0)), Some(RobinValue(5, 5, 0)), Some(RobinValue(3, 13, 0))]
  {
    assert s[3] == s[3..7][0] && s[4] == s[3..7][1] && s[5] == s[3..7][2];
    assert s2[3..7] == [s2[3], s2[4], s2[5], s2[6]];
  }

  /** The home indices of slots 3 to 6 read off a run of four entries. */
  lemma HomesOfRun(t: Table<int, int>)
    requires |t.buckets.slots| == 10
    requires Run(t) == [Some(RobinValue(3, 3, 0)), Some(RobinValue(4, 4, 0)), Some(RobinValue(5, 5, 0)), Some(RobinValue(3, 13, 0))]
    ensures [HomeAt(t, 3), HomeAt(t, 4), HomeAt(t, 5), HomeAt(t, 6)] == [3, 4, 5, 3]
  {
  }

  /** The fourth insertion, which evicts the entry of key 13. */
  lemma InsertLast(t: Table<int, int>, items: seq<(int, int)>)
    requires Valid(t, Identity) && |t.buckets.slots| == 10
    requires Run(t) == [Some(RobinValue(3, 3, 0)), Some(RobinValue(3, 13, 0)), Some(RobinValue(5, 5, 0)), None]
    requires items == [(4, 0)]
    ensures var r := SetAll(t, Identity, items);
      r.Done? && [HomeAt(r.table, 3), HomeAt(r.table, 4), HomeAt(r.table, 5), HomeAt(r.table, 6)] == [3, 4, 5, 3]
  {
    Place4(t);
    var r4 := SetItem(t, Identity, 4, 0).0;
    assert SetAll(t, Identity, items) == SetAll(r4.table, Identity, []);
    HomesOfRun(r4.table);
  }

  /** The third and fourth insertions. */
  lemma InsertLastTwo(t: Table<int, int>, items: seq<(int, int)>)
    requires Valid(t, Identity) && |t.buckets.slots| == 10
    requires Run(t) == [Some(RobinValue(3, 3, 0)), None, Some(RobinValue(5, 5, 0)), None]
    requires items == [(13, 0), (4, 0)]
    ensures var r := SetAll(t, Identity, items);
      r.Done? && [HomeAt(r.table, 3), HomeAt(r.table, 4), HomeAt(r.table, 5), HomeAt(r.table, 6)] == [3, 4, 5, 3]
  {
    Place13(t);
    var r3 := SetItem(t, Identity, 13, 0).0;
    assert SetAll(t, Identity, items) == SetAll(r3.table, Identity, items[1..]);
    InsertLast(r3.table, items[1..]);
  }

  /** The second to fourth insertions. */
  lemma InsertLastThree(t: Table<int, int>, items: seq<(int, int)>)
    requires Valid(t, Identity) && |t.buckets.slots| == 10
    requires Run(t) == [None, None, Some(RobinValue(5, 5, 0)), None]
    requires items == [(3, 0), (13, 0), (4, 0)]
    ensures var r := SetAll(t, Identity, items);
      r.Done? && [HomeAt(r.table, 3), HomeAt(r.table, 4), HomeAt(r.table, 5), HomeAt(r.table, 6)] == [3, 4, 5, 3]
  {
    Place3(t);
    var r2 := SetItem(t, Identity, 3, 0).0;
    assert SetAll(t, Identity, items) == SetAll(r2.table, Identity, items[1..]);
    InsertLastTwo(r2.table, items[1..]);
  }

  /** All four insertions into an empty 10-slot table. */
  lemma InsertAll(t: Table<int, int>, items: seq<(int, int)>)
    requires Valid(t, Identity) && |t.buckets.slots| == 10
    requires forall i :: 0 <= i < 10 ==> t.buckets.slots[i].None?
    requires items == [(5, 0), (3, 0), (13, 0), (4, 0)]
    ensures var r := SetAll(t, Identity, items);
      r.Done? && [HomeAt(r.table, 3), HomeAt(r.table, 4), HomeAt(r.table, 5), HomeAt(r.table, 6)] == [3, 4, 5, 3]
  {
    Place5(t);
    var r1 := SetItem(t, Identity, 5, 0).0;
    assert SetAll(t, Identity, items) == SetAll(r1.table, Identity, items[1..]);
    InsertLastThree(r1.table, items[1..]);
  }

  /**
    Before anything is stored `mean_dist` is 1, so the window of home 9 in a
    fresh 10-slot table starts at index 10, past the array.
  */
  lemma FreshWindow()
    ensures Window(EmptyTable<int, int>(10), 9) == [10, 9]
  {
    var up := Ascending(10, 11);
    var down := Descending(9, 8);
    assert up == [10] && down == [9];
    var u := Interleave(up, down, 0);
    assert u[0] == 10 && u[1] == 9 && |u| == 2;
    assert u == [10, 9] && u[1..] == [9];
    assert KeepCandidates([9], 9, {}) == [9];
    assert KeepCandidates(u, 9, {}) == [10, 9];
  }

  /** So in a fresh table the lookup of a key of home 9 raises `IndexError`, not `KeyError`. */
  lemma FreshLookupIndexError()
    ensures GetItem(EmptyTable<int, int>(10), Identity, 9) == Err(IndexError(10))
  {
    FreshWindow();
    var t := EmptyTable<int, int>(10);
    assert ComputeHash(Identity, 10, 9) == 9;
    assert ProbeWindow(t.buckets.slots, [10, 9], 9, 9, 0) == PastEnd(0);
  }

  /**
    The home indices of a run of occupied slots need not be sorted: inserting
    homes 5, 3, 3, 4 into 10 slots leaves homes 3, 4, 5, 3 in slots 3 to 6,
    because the evicted entry of home 3 is re-placed after the entry of home 5.
    The items come as the positional mapping, `RobinHoodDict({5: 0, 3: 0, 13: 0,
    4: 0})`, with small integers hashing to themselves; with no keyword
    arguments the capacity is 10.
  */
  lemma HomeRunsNotSorted(items: seq<(int, int)>)
    requires items == [(5, 0), (3, 0), (13, 0), (4, 0)]
    ensures var r := New(Identity, items, []);
      r.Done? && [HomeAt(r.table, 3), HomeAt(r.table, 4), HomeAt(r.table, 5), HomeAt(r.table, 6)] == [3, 4, 5, 3]
  {
    var t: Table<int, int> := EmptyTable(10);
    EmptyTableIsValid<int, int>(10, Identity);
    InsertAll(t, items);
    assert InitialCapacity(0) == 10;
    assert New(Identity, items, []) == SetAll(t, Identity, items);
  }
}

=== FILE: search_window.dfy ===
/**
  The adaptive search window of `_get_smart_search_indexes`
  (robin_dict.py:134-140).

  Two Python ranges are interleaved by `chain(*zip_longest(..., fillvalue=0))`:
  an ascending arm from `h + mean_dist` up to `h + max_dist`, and a descending
  arm from `h + mean_dist - 1` down to `h`.  The result is then filtered to the
  indices at or above `h` that are not tombstoned.
*/
module SearchWindow {

  function Max(a: int, b: int): int {
    if a < b then b else a
  }

  /** Python's `range(lo, hi)`: lo, lo + 1, ..., hi - 1. */
  function Ascending(lo: int, hi: int): (r: seq<int>)
    ensures |r| == Max(hi - lo, 0)
    ensures forall k :: 0 <= k < |r| ==> r[k] == lo + k
    ensures forall x :: x in r <==> lo <= x < hi
  {
    var r := seq(Max(hi - lo, 0), k => lo + k);
    InRangeIsListed(r, lo, hi, 1);
    r
  }

  /** Python's `range(hi, lo, -1)`: hi, hi - 1, ..., lo + 1. */
  function Descending(hi: int, lo: int): (r: seq<int>)
    ensures |r| == Max(hi - lo, 0)
    ensures forall k :: 0 <= k < |r| ==> r[k] == hi - k
    ensures forall x :: x in r <==> lo < x <= hi
  {
    var r := seq(Max(hi - lo, 0), k => hi - k);
    InRangeIsListed(r, hi, lo, -1);
    r
  }

  /** An arithmetic progression from `start` with unit `step` lists every value it passes. */
  lemma InRangeIsListed(r: seq<int>, start: int, stop: int, step: int)
    requires step == 1 || step == -1
    requires |r| == Max(step * (stop - start), 0)
    requires forall k :: 0 <= k < |r| ==> r[k] == start + step * k
    ensures forall x :: x in r <==> (if step == 1 then start <= x < stop else stop < x <= start)
  {
    forall x | (if step == 1 then start <= x < stop else stop < x <= start)
      ensures x in r
    {
      assert r[step * (x - start)] == x;
    }
  }

  /** Position `k` of an arm, or `fill` past its end. */
  function At(s: seq<int>, k: int, fill: int): int {
    if 0 <= k < |s| then s[k] else fill
  }

  /**
    `chain(*zip_longest(a, b, fillvalue=fill))`: a[0], b[0], a[1], b[1], ...,
    the shorter arm padded with `fill`.
  */
  function Interleave(a: seq<int>, b: seq<int>, fill: int): (r: seq<int>)
    ensures |r| == 2 * Max(|a|, |b|)
    ensures forall k :: 0 <= k < |a| ==> r[2 * k] == a[k]
    ensures forall k :: 0 <= k < |b| ==> r[2 * k + 1] == b[k]
    ensures forall k :: |a| <= k < Max(|a|, |b|) ==> r[2 * k] == fill
    ensures forall k :: |b| <= k < Max(|a|, |b|) ==> r[2 * k + 1] == fill
    ensures forall x :: x in r <==> x in a || x in b || (|a| != |b| && x == fill)
  {
    var r := seq(2 * Max(|a|, |b|), k => if k % 2 == 0 then At(a, k / 2, fill) else At(b, k / 2, fill));
    AlternateArms(a, b, fill, r);
    r
  }

  /** Facts about a sequence whose even positions walk `a` and odd positions walk `b`. */
  lemma AlternateArms(a: seq<int>, b: seq<int>, fill: int, r: seq<int>)
    requires |r| == 2 * Max(|a|, |b|)
    requires forall k :: 0 <= k < |r| ==> r[k] == if k % 2 == 0 then At(a, k / 2, fill) else At(b, k / 2, fill)
    ensures forall k :: 0 <= k < |a| ==> r[2 * k] == a[k]
    ensures forall k :: 0 <= k < |b| ==> r[2 * k + 1] == b[k]
    ensures forall k :: |a| <= k < Max(|a|, |b|) ==> r[2 * k] == fill
    ensures forall k :: |b| <= k < Max(|a|, |b|) ==> r[2 * k + 1] == fill
    ensures forall x :: x in r <==> x in a || x in b || (|a| != |b| && x == fill)
  {
    forall k | 0 <= k < |a| ensures r[2 * k] == a[k] {
      assert (2 * k) % 2 == 0 && (2 * k) / 2 == k;
    }
    forall k | 0 <= k < |b| ensures r[2 * k + 1] == b[k] {
      assert (2 * k + 1) % 2 == 1 && (2 * k + 1) / 2 == k;
    }
    forall k | |a| <= k < Max(|a|, |b|) ensures r[2 * k] == fill {
      assert (2 * k) % 2 == 0 && (2 * k) / 2 == k;
    }
    forall k | |b| <= k < Max(|a|, |b|) ensures r[2 * k + 1] == fill {
      assert (2 * k + 1) % 2 == 1 && (2 * k + 1) / 2 == k;
    }
    forall x | x in r
      ensures x in a || x in b || (|a| != |b| && x == fill)
    {
      var k :| 0 <= k < |r| && r[k] == x;
      assert k / 2 < Max(|a|, |b|);
    }
    if |a| < |b| {
      assert (2 * |a|) % 2 == 0 && (2 * |a|) / 2 == |a|;
      assert r[2 * |a|] == fill;
    } else if |b| < |a| {
      assert (2 * |b| + 1) % 2 == 1 && (2 * |b| + 1) / 2 == |b|;
      assert r[2 * |b| + 1] == fill;
    }
  }

  /** The generator's filter: indices at or above `h` that are not tombstones. */
  function KeepCandidates(s: seq<int>, h: int, deleted: set<int>): (r: seq<int>)
    ensures |r| <= |s|
    ensures forall x :: x in r <==> x in s && h <= x && x !in deleted
  {
    if |s| == 0 then []
    else
      var rest := KeepCandidates(s[1..], h, deleted);
      assert forall x :: x in s <==> x == s[0] || x in s[1..];
      if h <= s[0] && s[0] !in deleted then [s[0]] + rest else rest
  }

  /**
    The filter works element by element: it keeps order and multiplicity,
    because filtering a concatenation concatenates the filtered parts, and a
    single index is kept exactly when it is a candidate.
  */
  lemma {:induction false} KeepCandidatesDistributes(s1: seq<int>, s2: seq<int>, h: int, deleted: set<int>)
    ensures KeepCandidates(s1 + s2, h, deleted) == KeepCandidates(s1, h, deleted) + KeepCandidates(s2, h, deleted)
    ensures forall x :: KeepCandidates([x], h, deleted) == if h <= x && x !in deleted then [x] else []
    decreases |s1|
  {
    if |s1| == 0 {
      assert s1 + s2 == s2;
    } else {
      assert (s1 + s2)[0] == s1[0] && (s1 + s2)[1..] == s1[1..] + s2;
      KeepCandidatesDistributes(s1[1..], s2, h, deleted);
    }
    forall x ensures KeepCandidates([x], h, deleted) == if h <= x && x !in deleted then [x] else [] {
      assert [x][1..] == [];
    }
  }

  /** Every element of `u` above `i` comes after an occurrence of `i`. */
  ghost predicate ListedBeforeLarger(u: seq<int>, i: int) {
    forall p :: 0 <= p < |u| && u[p] > i ==> i in u[..p]
  }

  /**
    With a non-positive mean the descending arm is empty and the window walks
    upward from `h`: every index of [h, h + max_dist] is met before any larger
    index.
  */
  lemma InterleaveAscends(h: int, meanDist: int, maxDist: int, i: int)
    requires meanDist <= 0 && 0 <= h <= i <= h + maxDist
    ensures ListedBeforeLarger(Interleave(Ascending(meanDist + h, maxDist + h + 1),
                                          Descending(meanDist + h - 1, h - 1), 0), i)
  {
    var a := Ascending(meanDist + h, maxDist + h + 1);
    var b := Descending(meanDist + h - 1, h - 1);
    var r := Interleave(a, b, 0);
    assert |b| == 0 && Max(|a|, |b|) == |a|;
    var q := 2 * (i - meanDist - h);
    assert r[q] == i;
    forall p | 0 <= p < |r| && r[p] > i
      ensures i in r[..p]
    {
      var k := p / 2;
      assert 0 <= k < |a|;
      if p == 2 * k {
        assert r[p] == meanDist + h + k;
        assert r[..p][q] == i;
      } else {
        assert false;
      }
    }
  }

  /** The filter keeps a candidate `i` ahead of every larger index. */
  lemma {:induction false} KeepCandidatesKeepsOrder(s: seq<int>, h: int, deleted: set<int>, i: int)
    requires h <= i && i !in deleted && ListedBeforeLarger(s, i)
    ensures ListedBeforeLarger(KeepCandidates(s, h, deleted), i)
  {
    if |s| > 0 {
      var rest := KeepCandidates(s[1..], h, deleted);
      if s[0] == i {
        ListedFirst(i, rest);
      } else {
        ListedAfterSmaller(s, i);
        KeepCandidatesKeepsOrder(s[1..], h, deleted, i);
        if h <= s[0] && s[0] !in deleted {
          ListedAfterSmaller([s[0]] + rest, i);
        }
      }
    }
  }

  /** A sequence that starts with `i` lists `i` before everything. */
  lemma ListedFirst(i: int, rest: seq<int>)
    ensures ListedBeforeLarger([i] + rest, i)
  {
    var u := [i] + rest;
    forall p | 0 <= p < |u| && u[p] > i ensures i in u[..p] {
      assert u[..p][0] == i;
    }
  }

  /** A head that is neither `i` nor larger does not change where `i` is listed. */
  lemma ListedAfterSmaller(u: seq<int>, i: int)
    requires |u| > 0 && u[0] != i && u[0] <= i
    ensures ListedBeforeLarger(u, i) <==> ListedBeforeLarger(u[1..], i)
  {
    if ListedBeforeLarger(u, i) {
      forall p | 0 <= p < |u[1..]| && u[1..][p] > i ensures i in u[1..][..p] {
        assert u[p + 1] > i && u[..p + 1] == [u[0]] + u[1..][..p];
      }
    }
    if ListedBeforeLarger(u[1..], i) {
      forall p | 0 <= p < |u| && u[p] > i ensures i in u[..p] {
        assert p > 0 && u[1..][p - 1] > i && u[..p] == [u[0]] + u[1..][..p - 1];
      }
    }
  }

  /**
    `_get_smart_search_indexes(h)`.  Every yielded index is at or above `h` and
    not tombstoned; every such index up to `h + max(max_dist, mean_dist - 1)` is
    yielded.  The padding value 0 can only reappear as `h` itself, so with a
    non-negative `max_dist` the window is exactly that interval minus the
    tombstones.  With a non-positive mean, the window also walks upward: each
    candidate index comes before every larger one.
  */
  function SmartSearchIndexes(h: int, meanDist: int, maxDist: int, deleted: set<int>): (r: seq<int>)
    requires 0 <= h
    ensures forall k :: 0 <= k < |r| ==> h <= r[k] && r[k] !in deleted
    ensures forall x :: h <= x <= h + Max(maxDist, meanDist - 1) && x !in deleted ==> x in r
    ensures 0 <= maxDist ==>
              forall x :: x in r <==> h <= x <= h + Max(maxDist, meanDist - 1) && x !in deleted
    ensures meanDist <= 0 ==>
              forall i :: h <= i <= h + maxDist && i !in deleted ==> ListedBeforeLarger(r, i)
  {
    var up := Ascending(meanDist + h, maxDist + h + 1);
    var down := Descending(meanDist + h - 1, h - 1);
    var u := Interleave(up, down, 0);
    var r := KeepCandidates(u, h, deleted);
    assert forall k :: 0 <= k < |r| ==> r[k] in r;
    forall i | meanDist <= 0 && h <= i <= h + maxDist && i !in deleted
      ensures ListedBeforeLarger(r, i)
    {
      InterleaveAscends(h, meanDist, maxDist, i);
      KeepCandidatesKeepsOrder(u, h, deleted, i);
    }
    r
  }
}
